=== FILE: README.md ===
# Wpf.BusyIndicatorEasy in Dafny

This project models the logic of a small WPF control library. The library
has four parts:

- a **busy indicator**, which is an overlay control. It shows its content
  either at once or after a delay timer fires. It hides the content when
  busy ends, and then it may hand keyboard focus to a chosen control.
- a **colour-blend converter**, which interpolates each ARGB channel
  towards a fixed colour.
- the **DWM colour lookup**, which reads the Desktop Window Manager accent
  colour and the opaque-blend flag from the registry once and caches them.
- a **progress-bar width converter**, which returns the larger of two
  widths.

The modules are `Values`, `Rounding`, `ColorBlend`, `WindowColors`,
`ProgressBarWidth` and `BusyIndicator`. `Values` holds bytes, `int32`,
`Color`, boxed objects and the exceptions as failure values. `Rounding`
holds round-half-to-even on reals.

The busy indicator is an immutable state record. `Step` is its pure
transition function. Each event either is `Disabled` (it cannot occur in
that state), or is `Faulted` (an exception escapes), or `Moved` (it moves
to a new state and emits effects). The effects are visual-state changes
and focus requests. The visual-state names are the constants of
`Wpf.BusyIndicatorEasy/BusyIndicator/Implementation/VisualStates.BusyIndicator.cs`
(lines 5-10). The delay timer is an armed flag with an interval. A tick is
possible only while the timer is armed. Each deferred focus hand-off that
the handler queues on the dispatcher is counted in the state. The
dispatcher runs a queued hand-off as its own event, `RunFocusAction`.

Doubles are modelled as reals. Reads from the registry come from an
oracle, a map from key names to `int32`. A missing key stands for every
way a read can fail.

## Model

| member | source | states |
|---|---|---|
| Rounding.RoundHalfEven | Wpf.BusyIndicatorEasy/Core/Converters/ColorBlendConverter.cs:48 | `Math.Round` returns a nearest integer, and a value half-way between two integers goes to the even one |
| Rounding.RoundWithin | Wpf.BusyIndicatorEasy/Core/Converters/ColorBlendConverter.cs:48-49 | rounding a value that lies between two integers gives a result between them, so the byte clamp after it never bites |
| ColorBlend.SetBlendedColorRatio | Wpf.BusyIndicatorEasy/Core/Converters/ColorBlendConverter.cs:15-22 | the setter fails with an argument exception exactly when the value is below 0 or above 1; on success it stores the value and leaves the blend colour alone |
| ColorBlend.SetBlendedColor | Wpf.BusyIndicatorEasy/Core/Converters/ColorBlendConverter.cs:25 | setting the blend colour leaves the ratio unchanged |
| ColorBlend.RatioAlwaysValid | Wpf.BusyIndicatorEasy/Core/Converters/ColorBlendConverter.cs:9-22 | starting from the default ratio 0, the stored ratio stays in [0, 1] whatever the client assigns, including assignments that are rejected |
| ColorBlend.Clamp | Wpf.BusyIndicatorEasy/Core/Converters/ColorBlendConverter.cs:49-50 | `Min(255, Max(0, x))` keeps x when it is already a byte, and otherwise gives 0 below the range and 255 above it |
| ColorBlend.FreshRatioAlwaysValid | Wpf.BusyIndicatorEasy/Core/Converters/ColorBlendConverter.cs:9-22 | a freshly constructed converter (ratio 0) keeps its ratio in [0, 1] after any sequence of client assignments |
| ColorBlend.MixBetween | Wpf.BusyIndicatorEasy/Core/Converters/ColorBlendConverter.cs:44-47 | when the ratio is in [0, 1], the unrounded interpolation lies between the source channel and the blend channel |
| ColorBlend.BlendValue | Wpf.BusyIndicatorEasy/Core/Converters/ColorBlendConverter.cs:42-51 | when the ratio is valid, a blended channel is the round-half-to-even of `original * (1 - ratio) + blend * ratio`, so the clamp never changes it, and it lies between its two inputs; at ratio 0 it is the source channel and at ratio 1 it is the blend channel |
| ColorBlend.BlendValueSymmetric | Wpf.BusyIndicatorEasy/Core/Converters/ColorBlendConverter.cs:44-47 | blending towards b with ratio t equals blending b towards the source with ratio 1 - t |
| ColorBlend.Convert | Wpf.BusyIndicatorEasy/Core/Converters/ColorBlendConverter.cs:27-40 | a colour input gives a colour output whose A, R, G and B are each the round-half-to-even of `input * (1 - ratio) + blend * ratio` with the one stored ratio (when that ratio is valid); null or any other object gives null |
| ColorBlend.ConvertAtZeroIsIdentity | Wpf.BusyIndicatorEasy/Core/Converters/ColorBlendConverter.cs:44-50 | with ratio 0, the default, every channel of the output equals the input |
| ColorBlend.ConvertAtOneIsBlendColor | Wpf.BusyIndicatorEasy/Core/Converters/ColorBlendConverter.cs:44-50 | with ratio 1, the output is the blend colour |
| ColorBlend.ConvertChannelsBetween | Wpf.BusyIndicatorEasy/Core/Converters/ColorBlendConverter.cs:44-49 | with a valid ratio, each of A, R, G and B lies between the input channel and the blend channel |
| ColorBlend.ConvertChannelsIndependent | Wpf.BusyIndicatorEasy/Core/Converters/ColorBlendConverter.cs:33-39 | the channels are blended independently: two inputs that agree on a channel give outputs that agree on it |
| ColorBlend.ConvertBack | Wpf.BusyIndicatorEasy/Core/Converters/ColorBlendConverter.cs:53-57 | always fails with not-implemented |
| ProgressBarWidth.UnboxDouble | Wpf.BusyIndicatorEasy/BusyIndicator/Implementation/Converters/ProgressBarWidthConverter.cs:11-12 | unboxing succeeds exactly on a boxed double and gives its value; null gives a null-reference failure and any other object an invalid-cast failure |
| ProgressBarWidth.Convert | Wpf.BusyIndicatorEasy/BusyIndicator/Implementation/Converters/ProgressBarWidthConverter.cs:9-15 | succeeds exactly when slots 0 and 1 both exist and hold doubles; failures come in source order (missing slot 0, unboxing slot 0, missing slot 1, unboxing slot 1); the result is at least the content width, at least the parent minimum width, and equal to one of them |
| ProgressBarWidth.ConvertIsLeastUpperBound | Wpf.BusyIndicatorEasy/BusyIndicator/Implementation/Converters/ProgressBarWidthConverter.cs:14 | no width at least as large as both inputs is smaller than the result |
| ProgressBarWidth.ConvertIgnoresExtraSlots | Wpf.BusyIndicatorEasy/BusyIndicator/Implementation/Converters/ProgressBarWidthConverter.cs:11-14 | values after the first two slots do not affect the result |
| ProgressBarWidth.ConvertBack | Wpf.BusyIndicatorEasy/BusyIndicator/Implementation/Converters/ProgressBarWidthConverter.cs:17-20 | always fails with not-implemented |
| WindowColors.GetBytes | Wpf.BusyIndicatorEasy/Core/Media/WindowColors.cs:72 | `BitConverter.GetBytes` gives four bytes, least significant first, that read back (as `ToInt32`) to the same integer |
| WindowColors.GetBytesFromBytes | Wpf.BusyIndicatorEasy/Core/Media/WindowColors.cs:72 | the other round trip: any four bytes survive being read as an integer and split again |
| WindowColors.DecodeColor | Wpf.BusyIndicatorEasy/Core/Media/WindowColors.cs:69-80 | the decoded colour always has alpha 255, whatever the stored integer |
| WindowColors.DecodeStoredColor | Wpf.BusyIndicatorEasy/Core/Media/WindowColors.cs:71-79 | storing bytes B, G, R and any fourth byte decodes to the opaque colour (R, G, B) |
| WindowColors.DecodeColorDependsOnLow24 | Wpf.BusyIndicatorEasy/Core/Media/WindowColors.cs:71-79 | two stored integers decode to the same colour if and only if their low 24 bits agree, so byte 3 is discarded |
| WindowColors.DecodeBoolIsAnyByteSet | Wpf.BusyIndicatorEasy/Core/Media/WindowColors.cs:85 | a stored integer is zero if and only if all four of its stored bytes are zero |
| WindowColors.DecodeBool | Wpf.BusyIndicatorEasy/Core/Media/WindowColors.cs:82-86 | the boolean setting is false if and only if all four stored bytes are zero, that is, true exactly when the stored integer is non-zero |
| WindowColors.ColorizationColor | Wpf.BusyIndicatorEasy/Core/Media/WindowColors.cs:11-29 | a cached colour is returned as is; otherwise the registry value is decoded, or the fallback (255, 175, 175, 175) is used when the read fails; the result is cached; the boolean cache is untouched |
| WindowColors.ColorizationOpaqueBlend | Wpf.BusyIndicatorEasy/Core/Media/WindowColors.cs:31-51 | a cached flag is returned as is; otherwise the result is true if and only if the read succeeds with a non-zero value, so a failed read gives false; the result is cached; the colour cache is untouched |
| WindowColors.FirstColorReadIsFinal | Wpf.BusyIndicatorEasy/Core/Media/WindowColors.cs:11-29 | from the empty cache, every later colour answer equals the first colour read, whatever the registry holds at each call |
| WindowColors.CachedColorIgnoresRegistry | Wpf.BusyIndicatorEasy/Core/Media/WindowColors.cs:15-16 | once the colour is cached, the registry contents do not affect the result or the cache |
| WindowColors.CachedOpaqueBlendIgnoresRegistry | Wpf.BusyIndicatorEasy/Core/Media/WindowColors.cs:35-36 | once the flag is cached, the registry contents do not affect the result or the cache |
| WindowColors.ReplayIsMemoised | Wpf.BusyIndicatorEasy/Core/Media/WindowColors.cs:8-51 | over any run of getter calls, with the registry changing in between, every colour answer equals every other colour answer, and likewise for the flag |
| BusyIndicator.ChangeVisualState | Wpf.BusyIndicatorEasy/BusyIndicator/Implementation/BusyIndicator.cs:438-440 | chooses Busy if and only if busy (Idle otherwise), then Visible if and only if the content is visible (Hidden otherwise), in their groups |
| BusyIndicator.OnIsBusyChanged | Wpf.BusyIndicatorEasy/BusyIndicator/Implementation/BusyIndicator.cs:103-137 | busy with zero delay shows the content and leaves the timer alone; busy with a delay re-arms the timer with that interval and keeps visibility; not busy stops the timer, hides the content and queues one focus hand-off when a target is set; the result is always consistent, and it announces its visual states |
| BusyIndicator.Tick | Wpf.BusyIndicatorEasy/BusyIndicator/Implementation/BusyIndicator.cs:394-399 | possible only while the timer runs; it stops the timer, shows the content and announces the visual states |
| BusyIndicator.FocusActionAsWritten | Wpf.BusyIndicatorEasy/BusyIndicator/Implementation/BusyIndicator.cs:125-133 | the queued hand-off focuses the target it finds when it runs and clears it; if that target is null it faults with a null reference |
| BusyIndicator.FocusAction | Wpf.BusyIndicatorEasy/BusyIndicator/Implementation/BusyIndicator.cs:125-133 | the null-checked hand-off never faults; it focuses the current target if there is one, and always clears it |
| BusyIndicator.Step | Wpf.BusyIndicatorEasy/BusyIndicator/Implementation/BusyIndicator.cs:74-399 | an event is impossible exactly when it is a tick with the timer stopped, or a hand-off with none queued; the null-checked version never faults; every move preserves consistency |
| BusyIndicator.InitialIsConsistent | Wpf.BusyIndicatorEasy/BusyIndicator/Implementation/BusyIndicator.cs:63-78 | the freshly constructed control (not busy, hidden, timer stopped) is consistent |
| BusyIndicator.RunKeepsConsistent | Wpf.BusyIndicatorEasy/BusyIndicator/Implementation/BusyIndicator.cs:103-137 | along every event sequence from a consistent state, visible content and a running timer imply busy, and busy implies visible or timer running |
| BusyIndicator.BecomeBusyWithoutDelay | Wpf.BusyIndicatorEasy/BusyIndicator/Implementation/BusyIndicator.cs:105-111 | becoming busy with zero delay makes the content visible at once and does not arm the timer |
| BusyIndicator.BecomeBusyWithDelay | Wpf.BusyIndicatorEasy/BusyIndicator/Implementation/BusyIndicator.cs:112-117 | becoming busy with a non-zero delay arms the timer with interval `DisplayAfter` and leaves the content hidden |
| BusyIndicator.LeaveBusy | Wpf.BusyIndicatorEasy/BusyIndicator/Implementation/BusyIndicator.cs:119-133 | leaving busy stops the timer and hides the content; it queues one focus hand-off exactly when a target is set |
| BusyIndicator.AssigningSameValueIsSilent | Wpf.BusyIndicatorEasy/BusyIndicator/Implementation/BusyIndicator.cs:78 | assigning any of `IsBusy`, `IsIndeterminate`, `MinValue`, `MaxValue`, `CurrentProgressValue`, `Title`, `DisplayAfter` or `FocusAfterBusy` the value it already has runs no handler and changes nothing |
| BusyIndicator.UnwiredAssignmentRunsNoHandler | Wpf.BusyIndicatorEasy/BusyIndicator/Implementation/BusyIndicator.cs:302-328 | `DisplayAfter` and `FocusAfterBusy` are registered without a callback: assigning them changes only that property, runs no handler and emits nothing |
| BusyIndicator.ClearingQueuedTargetFaults | Wpf.BusyIndicatorEasy/BusyIndicator/Implementation/BusyIndicator.cs:125-133 | as written, clearing `FocusAfterBusy` while a hand-off is queued makes that hand-off fault with a null reference |
| BusyIndicator.WiredChangeRerunsHandler | Wpf.BusyIndicatorEasy/BusyIndicator/Implementation/BusyIndicator.cs:146-238 | changing `IsIndeterminate`, `MinValue`, `MaxValue`, `CurrentProgressValue` or `Title` runs the busy handler: while busy with a delay it re-arms the timer; while idle it keeps the content hidden and the timer stopped |
| BusyIndicator.EveryMoveAnnouncesState | Wpf.BusyIndicatorEasy/BusyIndicator/Implementation/BusyIndicator.cs:405-440 | after every handler run or tick the chosen states are Busy if and only if busy, and Visible if and only if visible; template application announces them without transitions |
| BusyIndicator.TickShowsContent | Wpf.BusyIndicatorEasy/BusyIndicator/Implementation/BusyIndicator.cs:394-399 | a tick of a running timer disarms it and makes the content visible |
| BusyIndicator.DrainFocusActions | Wpf.BusyIndicatorEasy/BusyIndicator/Implementation/BusyIndicator.cs:125-133 | running every queued null-checked hand-off focuses the current target exactly once, if there is one, and clears it |
| BusyIndicator.LeaveBusyFocusesTargetOnce | Wpf.BusyIndicatorEasy/BusyIndicator/Implementation/BusyIndicator.cs:119-133 | with the null-checked hand-off, leaving busy with a target and then running the queue gives exactly one focus request, for that control, and clears the target; a null target gives none |
| BusyIndicator.AsWrittenLeaveBusyFocusesTargetOnce | Wpf.BusyIndicatorEasy/BusyIndicator/Implementation/BusyIndicator.cs:119-133 | with the hand-off as written and nothing else queued, leaving busy with a target and running the queued hand-off gives exactly one focus request, for that control, and clears the target |
| BusyIndicator.NullCheckedRunNeverFaults | Wpf.BusyIndicatorEasy/BusyIndicator/Implementation/BusyIndicator.cs:125-133 | with the null check, no event sequence faults |
| BusyIndicator.SecondFocusActionFaults | Wpf.BusyIndicatorEasy/BusyIndicator/Implementation/BusyIndicator.cs:125-133 | as written, this sequence ends in a null-reference fault: set a target, become busy, leave busy, change the title, then run both queued hand-offs |

## Left out

- The WPF dependency-property engine, styles, templates and `VisualStateManager` are not modelled. Only the chosen state names and the `useTransitions` flag are emitted, not how they render.
- The properties `BusyContent`, `BusyContentTemplate`, `OverlayStyle` and `ProgressBarStyle` have no change handler and no behaviour, so they are not part of the state.
- The commented-out setter and `DataContext` code, and the unused `setterMin` (BusyIndicator.cs lines 407-436), are dead code.
- `DispatcherTimer` timing is abstract: an armed flag and an interval, with no deadline. The timer's own rejection of a negative interval, or of one above `Int32.MaxValue` milliseconds, is framework code that is not visible here. Every non-zero `DisplayAfter` is treated alike. In the source that rejection escapes from BusyIndicator.cs line 115 after `IsBusy` is already stored, leaving the control busy, hidden and with the timer stopped, a state the model's consistency invariant rules out; the model does not reach that state.
- The dispatcher's priority ordering is not modelled. A queued focus hand-off, a timer tick and property assignments can interleave in any order, which over-approximates the real ordering.
- Actual registry access (WindowColors.cs lines 53-67) is OS I/O. It is replaced by an oracle. A missing sub-key, a missing value, a value of another type and a security exception all look like an absent key.
- Doubles are modelled as reals. IEEE-754 effects are not modelled: NaN getting past the ratio check, NaN in `Math.Max`, and the inexact products in `BlendValue` that can change which side of a rounding tie a value falls on.
- `BitConverter` is modelled for a little-endian machine only.
- The `targetType`, `parameter` and `culture` arguments of the converters are ignored by the code and are not modelled. A null `values` array passed to the width converter is not modelled either.
- `Title`'s getter calls `ToString` on the stored value; the getter is not used by the modelled logic.
- `WindowControlBackgroundConverter.cs` depends on WPF `Brush.Clone` and `ReadLocalValue` semantics that are not part of this model. `CancelRoutedEventArgs.cs`, `IndexChangedEventArgs.cs`, `IterativeAnimationEquation.cs` and `IterativeAnimationEquationDelegate.cs` are event-argument and delegate plumbing with no logic.

## Findings

| source | as written | input that shows it | evidently intended | confidence | as-written member | corrected member |
|---|---|---|---|---|---|---|
| Wpf.BusyIndicatorEasy/BusyIndicator/Implementation/BusyIndicator.cs:125-133 | The deferred hand-off reads `this.FocusAfterBusy` only when the dispatcher runs it, and it dereferences the value without a null check. Every run of the busy handler while idle with a target set queues another hand-off. | Set `FocusAfterBusy`, set `IsBusy` to true and then to false, and change `Title` before the dispatcher reaches input priority. Two hand-offs are queued. The first focuses the target and clears it. The second calls `Focus()` on null. Clearing `FocusAfterBusy` while a hand-off is queued has the same effect. | Focus the target once after busy ends. A hand-off that finds the target already cleared does nothing. | medium, not executed | BusyIndicator.FocusActionAsWritten, BusyIndicator.SecondFocusActionFaults, BusyIndicator.ClearingQueuedTargetFaults, BusyIndicator.AsWrittenLeaveBusyFocusesTargetOnce | BusyIndicator.FocusAction, BusyIndicator.NullCheckedRunNeverFaults, BusyIndicator.LeaveBusyFocusesTargetOnce |

=== FILE: busy_indicator.dfy ===
/**
 The busy-indicator control as a state machine. Its state is the busy flag,
 the content-visibility flag, a delay timer (armed or not, with an
 interval), the progress properties whose change runs the same handler,
 the display delay, the control to focus once busy ends, and the number of
 focus hand-offs queued on the dispatcher. Events are property assignments,
 a template application, a timer tick and the dispatcher running a queued
 focus hand-off; each event either is not possible in the current state,
 faults, or moves to a new state while emitting visual-state changes and
 focus requests.
 */
module BusyIndicator {
  import opened Values

  /** Visual-state group and state names. */
  const GroupBusyStatus: string := "BusyStatusStates"
  const StateBusy: string := "Busy"
  const StateIdle: string := "Idle"
  const GroupVisibility: string := "VisibilityStates"
  const StateVisible: string := "Visible"
  const StateHidden: string := "Hidden"

  /** A `TimeSpan` in ticks of 100 ns. */
  type TimeSpan = int

  /** The `DisplayAfter` default: 0.1 s. */
  const DefaultDisplayAfter: TimeSpan := 1_000_000

  const DefaultTitle: string := "Aguarde..."

  /** Identity of a focusable control. */
  type ControlId = nat

  /** The dispatcher timer, abstracted to whether it is running and the
      interval it was last given. */
  datatype Timer = Timer(isEnabled: bool, interval: TimeSpan)

  datatype BusyIndicator = BusyIndicator(
    isBusy: bool,
    isContentVisible: bool,
    timer: Timer,
    isIndeterminate: bool,
    minValue: real,
    maxValue: real,
    currentProgressValue: real,
    title: string,
    displayAfter: TimeSpan,
    focusAfterBusy: Option<ControlId>,
    pendingFocusActions: nat)

  /** A newly constructed control: every property at its registered
      default, content hidden, timer stopped, nothing queued. */
  const Initial: BusyIndicator := BusyIndicator(
    isBusy := false,
    isContentVisible := false,
    timer := Timer(false, 0),
    isIndeterminate := false,
    minValue := 0.0,
    maxValue := 100.0,
    currentProgressValue := 0.0,
    title := DefaultTitle,
    displayAfter := DefaultDisplayAfter,
    focusAfterBusy := None,
    pendingFocusActions := 0)

  datatype Event =
    | SetIsBusy(busy: bool)
    | SetIsIndeterminate(indeterminate: bool)
    | SetMinValue(min: real)
    | SetMaxValue(max: real)
    | SetCurrentProgressValue(current: real)
    | SetTitle(text: string)
    | SetDisplayAfter(delay: TimeSpan)
    | SetFocusAfterBusy(target: Option<ControlId>)
    | ApplyTemplate
    | TimerTick
    | RunFocusAction

  /** What the control does to the outside world. */
  datatype Effect =
    | GoToState(group: string, state: string, useTransitions: bool)
    | Focus(control: ControlId)

  datatype Outcome =
    | Disabled                        // the event cannot occur in this state
    | Faulted(failure: Failure)       // an exception escapes onto the dispatcher
    | Moved(next: BusyIndicator, effects: seq<Effect>)

  /** The two versions of the queued focus hand-off: the code as written,
      and the one that checks for a cleared target. */
  datatype FocusActionVersion = AsWritten | NullChecked

  /** The effects announce the state: one visual state in the busy group,
      Busy exactly when busy and Idle otherwise, then one in the visibility
      group, Visible exactly when the content is visible and Hidden
      otherwise. */
  predicate Announces(effects: seq<Effect>, s: BusyIndicator, useTransitions: bool) {
    && |effects| == 2
    && effects[0].GoToState? && effects[1].GoToState?
    && effects[0].group == GroupBusyStatus && effects[1].group == GroupVisibility
    && effects[0].useTransitions == useTransitions && effects[1].useTransitions == useTransitions
    && (effects[0].state == StateBusy <==> s.isBusy)
    && (effects[0].state == StateIdle <==> !s.isBusy)
    && (effects[1].state == StateVisible <==> s.isContentVisible)
    && (effects[1].state == StateHidden <==> !s.isContentVisible)
  }

  /** `ChangeVisualState`. */
  function ChangeVisualState(s: BusyIndicator, useTransitions: bool): (effects: seq<Effect>)
    ensures Announces(effects, s, useTransitions)
  {
    [GoToState(GroupBusyStatus, if s.isBusy then StateBusy else StateIdle, useTransitions),
     GoToState(GroupVisibility, if s.isContentVisible then StateVisible else StateHidden, useTransitions)]
  }

  /** Visible content and a running timer both belong to a busy control,
      and a busy control is either showing its content or waiting for the
      timer to show it. */
  predicate Consistent(s: BusyIndicator) {
    && (s.isContentVisible ==> s.isBusy)
    && (s.timer.isEnabled ==> s.isBusy)
    && (s.isBusy ==> s.isContentVisible || s.timer.isEnabled)
  }

  /** Everything but the visibility, the timer and the focus queue. */
  predicate SameProperties(s: BusyIndicator, t: BusyIndicator) {
    && t.isBusy == s.isBusy
    && t.isIndeterminate == s.isIndeterminate
    && t.minValue == s.minValue
    && t.maxValue == s.maxValue
    && t.currentProgressValue == s.currentProgressValue
    && t.title == s.title
    && t.displayAfter == s.displayAfter
    && t.focusAfterBusy == s.focusAfterBusy
  }

  /** `OnIsBusyChanged`, run on the control whose property has just
      changed. Busy with no delay shows the content at once; busy with a
      delay (re)arms the timer with that delay and leaves visibility alone;
      not busy stops the timer, hides the content and, if a focus target is
      set, queues one focus hand-off. The visual states are then announced
      with transitions. Whatever the state before, the one after is
      consistent. */
  function OnIsBusyChanged(s: BusyIndicator): (r: Outcome)
    ensures r.Moved? && SameProperties(s, r.next)
    ensures Announces(r.effects, r.next, true)
    ensures s.isBusy && s.displayAfter == 0 ==>
      r.next.isContentVisible && r.next.timer == s.timer
    ensures s.isBusy && s.displayAfter != 0 ==>
      r.next.timer == Timer(true, s.displayAfter) && r.next.isContentVisible == s.isContentVisible
    ensures s.isBusy ==> r.next.pendingFocusActions == s.pendingFocusActions
    ensures !s.isBusy ==>
      && !r.next.timer.isEnabled && !r.next.isContentVisible
      && r.next.pendingFocusActions == s.pendingFocusActions + (if s.focusAfterBusy.Some? then 1 else 0)
    ensures Consistent(r.next)
  {
    var t :=
      if s.isBusy then
        if s.displayAfter == 0 then s.(isContentVisible := true)
        else s.(timer := Timer(true, s.displayAfter))
      else
        s.(timer := s.timer.(isEnabled := false),
           isContentVisible := false,
           pendingFocusActions := s.pendingFocusActions + if s.focusAfterBusy.Some? then 1 else 0);
    Moved(t, ChangeVisualState(t, true))
  }

  /** A dependency-property assignment: the changed-callback runs only when
      the value actually changes. */
  function AssignWired(s: BusyIndicator, t: BusyIndicator): Outcome {
    if t == s then Moved(s, []) else OnIsBusyChanged(t)
  }

  /** `DisplayAfterTimerElapsed`: only a running timer ticks; the tick stops
      it, shows the content and announces the visual states. */
  function Tick(s: BusyIndicator): (r: Outcome)
    ensures r.Disabled? <==> !s.timer.isEnabled
    ensures r.Moved? ==>
      && !r.next.timer.isEnabled && r.next.timer.interval == s.timer.interval
      && r.next.isContentVisible
      && SameProperties(s, r.next) && r.next.pendingFocusActions == s.pendingFocusActions
      && Announces(r.effects, r.next, true)
  {
    if !s.timer.isEnabled then Disabled
    else
      var t := s.(timer := s.timer.(isEnabled := false), isContentVisible := true);
      Moved(t, ChangeVisualState(t, true))
  }

  /** The queued focus hand-off as written: it looks up the target only
      when the dispatcher runs it, focuses it and clears it. A target that
      is already null by then is dereferenced anyway. */
  function FocusActionAsWritten(s: BusyIndicator): (r: Outcome)
    ensures r.Disabled? <==> s.pendingFocusActions == 0
    ensures s.pendingFocusActions > 0 && s.focusAfterBusy.None? ==> r == Faulted(NullReference)
    ensures s.pendingFocusActions > 0 && s.focusAfterBusy.Some? ==>
      r == Moved(s.(focusAfterBusy := None, pendingFocusActions := s.pendingFocusActions - 1),
                 [Focus(s.focusAfterBusy.value)])
  {
    if s.pendingFocusActions == 0 then Disabled
    else match s.focusAfterBusy
      case None => Faulted(NullReference)
      case Some(c) =>
        Moved(s.(focusAfterBusy := None, pendingFocusActions := s.pendingFocusActions - 1), [Focus(c)])
  }

  /** The queued focus hand-off with the missing null check: a target that
      has been cleared meanwhile is skipped instead of dereferenced. It
      never faults and focuses exactly the current target, if any. */
  function FocusAction(s: BusyIndicator): (r: Outcome)
    ensures r.Disabled? <==> s.pendingFocusActions == 0
    ensures !r.Faulted?
    ensures r.Moved? ==>
      && r.next.focusAfterBusy.None?
      && r.next.pendingFocusActions == s.pendingFocusActions - 1
      && r.next == s.(focusAfterBusy := None, pendingFocusActions := r.next.pendingFocusActions)
      && (s.focusAfterBusy.Some? ==> r.effects == [Focus(s.focusAfterBusy.value)])
      && (s.focusAfterBusy.None? ==> r.effects == [])
  {
    if s.pendingFocusActions == 0 then Disabled
    else
      var t := s.(focusAfterBusy := None, pendingFocusActions := s.pendingFocusActions - 1);
      match s.focusAfterBusy
      case None => Moved(t, [])
      case Some(c) => Moved(t, [Focus(c)])
  }

  /** One event. */
  function Step(version: FocusActionVersion, s: BusyIndicator, e: Event): (r: Outcome)
    ensures version == NullChecked ==> !r.Faulted?
    ensures r.Disabled? <==>
      (e.TimerTick? && !s.timer.isEnabled) || (e.RunFocusAction? && s.pendingFocusActions == 0)
    ensures Consistent(s) && r.Moved? ==> Consistent(r.next)
  {
    match e
    case SetIsBusy(b) => AssignWired(s, s.(isBusy := b))
    case SetIsIndeterminate(b) => AssignWired(s, s.(isIndeterminate := b))
    case SetMinValue(v) => AssignWired(s, s.(minValue := v))
    case SetMaxValue(v) => AssignWired(s, s.(maxValue := v))
    case SetCurrentProgressValue(v) => AssignWired(s, s.(currentProgressValue := v))
    case SetTitle(text) => AssignWired(s, s.(title := text))
    case SetDisplayAfter(d) => Moved(s.(displayAfter := d), [])
    case SetFocusAfterBusy(target) => Moved(s.(focusAfterBusy := target), [])
    case ApplyTemplate => Moved(s, ChangeVisualState(s, false))
    case TimerTick => Tick(s)
    case RunFocusAction =>
      if version == AsWritten then FocusActionAsWritten(s) else FocusAction(s)
  }

  /** A run of events; it stops at the first event that is not possible or
      that faults. */
  function Run(version: FocusActionVersion, s: BusyIndicator, events: seq<Event>): Outcome
    decreases |events|
  {
    if |events| == 0 then Moved(s, [])
    else match Step(version, s, events[0])
      case Moved(t, effects) =>
        (match Run(version, t, events[1..])
         case Moved(u, more) => Moved(u, effects + more)
         case other => other)
      case other => other
  }

  /** Every run from a consistent state, in particular from the initial
      one, ends in a consistent state. */
  lemma {:induction false} RunKeepsConsistent(version: FocusActionVersion, s: BusyIndicator, events: seq<Event>)
    requires Consistent(s)
    ensures Run(version, s, events).Moved? ==> Consistent(Run(version, s, events).next)
    decreases |events|
  {
    if |events| > 0 {
      var o := Step(version, s, events[0]);
      if o.Moved? {
        RunKeepsConsistent(version, o.next, events[1..]);
      }
    }
  }

  lemma InitialIsConsistent()
    ensures Consistent(Initial)
  {
  }

  /** With the null check in place no run faults. */
  lemma {:induction false} NullCheckedRunNeverFaults(s: BusyIndicator, events: seq<Event>)
    ensures !Run(NullChecked, s, events).Faulted?
    decreases |events|
  {
    if |events| > 0 {
      var o := Step(NullChecked, s, events[0]);
      if o.Moved? {
        NullCheckedRunNeverFaults(o.next, events[1..]);
      }
    }
  }

  /** A run whose first event faults or is impossible ends there; one
      whose first event moves continues from the state it moved to. */
  lemma RunFirstMoves(version: FocusActionVersion, s: BusyIndicator, e: Event, rest: seq<Event>)
    ensures !Step(version, s, e).Moved? ==> Run(version, s, [e] + rest) == Step(version, s, e)
    ensures Step(version, s, e).Moved? && !Run(version, Step(version, s, e).next, rest).Moved? ==>
      Run(version, s, [e] + rest) == Run(version, Step(version, s, e).next, rest)
    ensures Step(version, s, e).Moved? && Run(version, Step(version, s, e).next, rest).Moved? ==>
      var first, after := Step(version, s, e), Run(version, Step(version, s, e).next, rest);
      Run(version, s, [e] + rest) == Moved(after.next, first.effects + after.effects)
  {
    assert ([e] + rest)[1..] == rest;
  }

  /** A fault anywhere in a run, as written, is the run's outcome. */
  lemma RunThroughFault(s: BusyIndicator, e: Event, rest: seq<Event>)
    ensures Step(AsWritten, s, e).Faulted? ==> Run(AsWritten, s, [e] + rest) == Step(AsWritten, s, e)
    ensures Step(AsWritten, s, e).Moved? && Run(AsWritten, Step(AsWritten, s, e).next, rest).Faulted? ==>
      Run(AsWritten, s, [e] + rest) == Run(AsWritten, Step(AsWritten, s, e).next, rest)
  {
    assert ([e] + rest)[1..] == rest;
  }

  /** Leaving busy, then a second handler-wired change before the
      dispatcher gets round to the queued hand-off, queues it twice; the
      first run focuses and clears the target and the second dereferences
      the now-null target. */
  lemma SecondFocusActionFaults()
    ensures Run(AsWritten, Initial,
      [SetFocusAfterBusy(Some(7)), SetIsBusy(true), SetIsBusy(false), SetTitle("Done"),
       RunFocusAction, RunFocusAction]) == Faulted(NullReference)
  {
    var s1 := Initial.(focusAfterBusy := Some(7));
    var s2 := s1.(isBusy := true, timer := Timer(true, DefaultDisplayAfter));
    var s3 := s2.(isBusy := false, timer := Timer(false, DefaultDisplayAfter), pendingFocusActions := 1);
    var s4 := s3.(title := "Done", pendingFocusActions := 2);
    var s5 := s4.(focusAfterBusy := None, pendingFocusActions := 1);
    assert Step(AsWritten, s5, RunFocusAction) == Faulted(NullReference);
    assert Step(AsWritten, s4, RunFocusAction) == Moved(s5, [Focus(7)]);
    assert Step(AsWritten, s3, SetTitle("Done")).next == s4;
    assert Step(AsWritten, s2, SetIsBusy(false)).next == s3;
    assert Step(AsWritten, s1, SetIsBusy(true)).next == s2;
    assert Step(AsWritten, Initial, SetFocusAfterBusy(Some(7))).next == s1;
    var e1, e2, e3 := [RunFocusAction], [RunFocusAction, RunFocusAction],
      [SetTitle("Done"), RunFocusAction, RunFocusAction];
    var e4 := [SetIsBusy(false)] + e3;
    var e5 := [SetIsBusy(true)] + e4;
    RunThroughFault(s5, RunFocusAction, []);
    assert e1 == [RunFocusAction] + [];
    RunThroughFault(s4, RunFocusAction, e1);
    assert e2 == [RunFocusAction] + e1;
    RunThroughFault(s3, SetTitle("Done"), e2);
    assert e3 == [SetTitle("Done")] + e2;
    RunThroughFault(s2, SetIsBusy(false), e3);
    RunThroughFault(s1, SetIsBusy(true), e4);
    RunThroughFault(Initial, SetFocusAfterBusy(Some(7)), e5);
    assert [SetFocusAfterBusy(Some(7))] + e5 ==
      [SetFocusAfterBusy(Some(7)), SetIsBusy(true), SetIsBusy(false), SetTitle("Done"),
       RunFocusAction, RunFocusAction];
  }

  /** Becoming busy with no delay shows the content at once and leaves the
      timer as it was (stopped, in a consistent state). */
  lemma BecomeBusyWithoutDelay(version: FocusActionVersion, s: BusyIndicator)
    requires !s.isBusy && s.displayAfter == 0
    ensures var r := Step(version, s, SetIsBusy(true));
      && r.Moved? && r.next.isBusy && r.next.isContentVisible && r.next.timer == s.timer
      && (Consistent(s) ==> !r.next.timer.isEnabled)
      && Announces(r.effects, r.next, true)
  {
  }

  /** Becoming busy with a delay arms the timer with that delay and leaves
      the content hidden until it ticks. */
  lemma BecomeBusyWithDelay(version: FocusActionVersion, s: BusyIndicator)
    requires !s.isBusy && s.displayAfter != 0
    ensures var r := Step(version, s, SetIsBusy(true));
      && r.Moved? && r.next.isBusy
      && r.next.timer == Timer(true, s.displayAfter)
      && r.next.isContentVisible == s.isContentVisible
      && (Consistent(s) ==> !r.next.isContentVisible)
      && Announces(r.effects, r.next, true)
  {
  }

  /** Leaving busy stops the timer, hides the content and queues one focus
      hand-off exactly when a target is set. */
  lemma LeaveBusy(version: FocusActionVersion, s: BusyIndicator)
    requires s.isBusy
    ensures var r := Step(version, s, SetIsBusy(false));
      && r.Moved? && !r.next.isBusy
      && !r.next.timer.isEnabled && !r.next.isContentVisible
      && (s.focusAfterBusy.Some? ==> r.next.pendingFocusActions == s.pendingFocusActions + 1)
      && (s.focusAfterBusy.None? ==> r.next.pendingFocusActions == s.pendingFocusActions)
      && Announces(r.effects, r.next, true)
  {
  }

  /** Assigning a property its current value runs no handler and changes
      nothing. */
  lemma AssigningSameValueIsSilent(version: FocusActionVersion, s: BusyIndicator)
    ensures Step(version, s, SetIsBusy(s.isBusy)) == Moved(s, [])
    ensures Step(version, s, SetTitle(s.title)) == Moved(s, [])
    ensures Step(version, s, SetCurrentProgressValue(s.currentProgressValue)) == Moved(s, [])
    ensures Step(version, s, SetIsIndeterminate(s.isIndeterminate)) == Moved(s, [])
    ensures Step(version, s, SetMinValue(s.minValue)) == Moved(s, [])
    ensures Step(version, s, SetMaxValue(s.maxValue)) == Moved(s, [])
    ensures Step(version, s, SetDisplayAfter(s.displayAfter)) == Moved(s, [])
    ensures Step(version, s, SetFocusAfterBusy(s.focusAfterBusy)) == Moved(s, [])
  {
  }

  /** `DisplayAfter` and `FocusAfterBusy` are registered without a
      changed-callback: assigning them changes only that property, runs no
      handler and announces nothing; a running timer keeps its interval and
      queued hand-offs stay queued. */
  lemma UnwiredAssignmentRunsNoHandler(version: FocusActionVersion, s: BusyIndicator, d: TimeSpan,
                                       target: Option<ControlId>)
    ensures Step(version, s, SetDisplayAfter(d)) == Moved(s.(displayAfter := d), [])
    ensures Step(version, s, SetFocusAfterBusy(target)) == Moved(s.(focusAfterBusy := target), [])
  {
  }

  /** As written, clearing the focus target while a hand-off is queued is
      another way to reach the null dereference. */
  lemma ClearingQueuedTargetFaults(s: BusyIndicator)
    requires s.pendingFocusActions > 0
    ensures var t := Step(AsWritten, s, SetFocusAfterBusy(None));
      t.Moved? && Step(AsWritten, t.next, RunFocusAction) == Faulted(NullReference)
  {
  }

  /** The progress properties and the title whose change runs the busy
      handler. */
  predicate IsWiredChange(s: BusyIndicator, e: Event) {
    match e
    case SetIsIndeterminate(b) => b != s.isIndeterminate
    case SetMinValue(v) => v != s.minValue
    case SetMaxValue(v) => v != s.maxValue
    case SetCurrentProgressValue(v) => v != s.currentProgressValue
    case SetTitle(text) => text != s.title
    case _ => false
  }

  /** Changing a progress property or the title re-runs the busy handler:
      while busy with a delay it re-arms the timer; while busy without one
      it shows the content; while idle it keeps the timer stopped and the
      content hidden (and queues another focus hand-off if a target is
      still set). The busy flag itself never changes. */
  lemma WiredChangeRerunsHandler(version: FocusActionVersion, s: BusyIndicator, e: Event)
    requires IsWiredChange(s, e)
    ensures var r := Step(version, s, e);
      && r.Moved? && r.next.isBusy == s.isBusy
      && (s.isBusy && s.displayAfter != 0 ==>
            r.next.timer == Timer(true, s.displayAfter) && r.next.isContentVisible == s.isContentVisible)
      && (s.isBusy && s.displayAfter == 0 ==> r.next.isContentVisible)
      && (!s.isBusy ==> !r.next.isContentVisible && !r.next.timer.isEnabled)
      && (!s.isBusy && s.focusAfterBusy.Some? ==> r.next.pendingFocusActions == s.pendingFocusActions + 1)
      && Announces(r.effects, r.next, true)
  {
  }

  /** Every handler run or tick announces the state it leaves behind:
      Busy exactly when busy, Visible exactly when the content is visible.
      Template application announces the current state without
      transitions; the other assignments announce nothing. */
  lemma EveryMoveAnnouncesState(version: FocusActionVersion, s: BusyIndicator, e: Event)
    requires Step(version, s, e).Moved?
    ensures var r := Step(version, s, e);
      && (e.TimerTick? || IsWiredChange(s, e) || (e.SetIsBusy? && e.busy != s.isBusy) ==>
            Announces(r.effects, r.next, true))
      && (e.ApplyTemplate? ==> r.next == s && Announces(r.effects, s, false))
      && (e.SetDisplayAfter? || e.SetFocusAfterBusy? || e.RunFocusAction? ==>
            forall i | 0 <= i < |r.effects| :: r.effects[i].Focus?)
  {
  }

  /** A timer tick is possible exactly while the timer runs; it stops the
      timer and shows the content. */
  lemma TickShowsContent(version: FocusActionVersion, s: BusyIndicator)
    requires s.timer.isEnabled
    ensures var r := Step(version, s, TimerTick);
      && r.Moved? && !r.next.timer.isEnabled && r.next.isContentVisible
      && r.next.isBusy == s.isBusy
      && Announces(r.effects, r.next, true)
  {
  }

  /** `n` copies of one event. */
  function Repeat(e: Event, n: nat): (es: seq<Event>)
    ensures |es| == n && forall i | 0 <= i < n :: es[i] == e
  {
    if n == 0 then [] else [e] + Repeat(e, n - 1)
  }

  /** The controls a run of effects asks to focus, in order. */
  function FocusRequests(effects: seq<Effect>): seq<ControlId>
  {
    if |effects| == 0 then []
    else (if effects[0].Focus? then [effects[0].control] else []) + FocusRequests(effects[1..])
  }

  lemma FocusRequestsAppend(a: seq<Effect>, b: seq<Effect>)
    ensures FocusRequests(a + b) == FocusRequests(a) + FocusRequests(b)
  {
    if |a| > 0 {
      assert (a + b)[0] == a[0];
      assert (a + b)[1..] == a[1..] + b;
      FocusRequestsAppend(a[1..], b);
      var head := if a[0].Focus? then [a[0].control] else [];
      assert FocusRequests(a + b) == head + (FocusRequests(a[1..]) + FocusRequests(b));
      assert FocusRequests(a) == head + FocusRequests(a[1..]);
    } else {
      assert a + b == b;
    }
  }

  /** Effects without a focus request ask to focus nothing. */
  lemma {:induction false} NoFocusRequests(effects: seq<Effect>)
    requires forall i | 0 <= i < |effects| :: effects[i].GoToState?
    ensures FocusRequests(effects) == []
    decreases |effects|
  {
    if |effects| > 0 {
      NoFocusRequests(effects[1..]);
    }
  }

  /** Running every queued hand-off (null-checked) focuses the current
      target once, if there is one, and clears it. */
  lemma {:induction false} DrainFocusActions(s: BusyIndicator, n: nat)
    requires s.pendingFocusActions == n > 0
    ensures var r := Run(NullChecked, s, Repeat(RunFocusAction, n));
      && r.Moved?
      && r.next == s.(focusAfterBusy := None, pendingFocusActions := 0)
      && (s.focusAfterBusy.Some? ==> r.effects == [Focus(s.focusAfterBusy.value)])
      && (s.focusAfterBusy.None? ==> r.effects == [])
    decreases n
  {
    var first := Step(NullChecked, s, RunFocusAction);
    assert Repeat(RunFocusAction, n) == [RunFocusAction] + Repeat(RunFocusAction, n - 1);
    RunFirstMoves(NullChecked, s, RunFocusAction, Repeat(RunFocusAction, n - 1));
    if n > 1 {
      DrainFocusActions(first.next, n - 1);
    }
  }

  /** Leaving busy with a focus target, then letting the dispatcher run
      every queued hand-off, asks for focus on that control exactly once
      and clears the target; with no target nothing is focused. */
  lemma LeaveBusyFocusesTargetOnce(s: BusyIndicator)
    requires s.isBusy
    ensures var queued := s.pendingFocusActions + if s.focusAfterBusy.Some? then 1 else 0;
      var r := Run(NullChecked, s, [SetIsBusy(false)] + Repeat(RunFocusAction, queued));
      && r.Moved?
      && (s.focusAfterBusy.Some? ==> FocusRequests(r.effects) == [s.focusAfterBusy.value])
      && (s.focusAfterBusy.None? ==> FocusRequests(r.effects) == [])
      && r.next.focusAfterBusy.None? && r.next.pendingFocusActions == 0
  {
    var first := Step(NullChecked, s, SetIsBusy(false));
    var n := s.pendingFocusActions + if s.focusAfterBusy.Some? then 1 else 0;
    RunFirstMoves(NullChecked, s, SetIsBusy(false), Repeat(RunFocusAction, n));
    NoFocusRequests(first.effects);
    var t := first.next;
    if n > 0 {
      DrainFocusActions(t, n);
      var rest := Run(NullChecked, t, Repeat(RunFocusAction, n));
      FocusRequestsAppend(first.effects, rest.effects);
      if s.focusAfterBusy.Some? {
        assert FocusRequests(rest.effects) == [s.focusAfterBusy.value] by {
          assert rest.effects[1..] == [];
        }
      }
    } else {
      assert first.effects + [] == first.effects;
    }
  }

  /** The hand-off as written, in the ordinary case of nothing else queued:
      leaving busy with a target and then running the one queued hand-off
      asks for focus on that control exactly once and clears the target. */
  lemma AsWrittenLeaveBusyFocusesTargetOnce(s: BusyIndicator, c: ControlId)
    requires s.isBusy && s.pendingFocusActions == 0 && s.focusAfterBusy == Some(c)
    ensures var r := Run(AsWritten, s, [SetIsBusy(false), RunFocusAction]);
      && r.Moved?
      && FocusRequests(r.effects) == [c]
      && r.next.focusAfterBusy.None? && r.next.pendingFocusActions == 0
  {
    var first := Step(AsWritten, s, SetIsBusy(false));
    var t := first.next;
    var second := Step(AsWritten, t, RunFocusAction);
    assert second == Moved(t.(focusAfterBusy := None, pendingFocusActions := 0), [Focus(c)]);
    RunFirstMoves(AsWritten, t, RunFocusAction, []);
    assert [RunFocusAction] + [] == [RunFocusAction];
    RunFirstMoves(AsWritten, s, SetIsBusy(false), [RunFocusAction]);
    assert [SetIsBusy(false)] + [RunFocusAction] == [SetIsBusy(false), RunFocusAction];
    NoFocusRequests(first.effects);
    FocusRequestsAppend(first.effects, second.effects + []);
    assert FocusRequests([Focus(c)]) == [c] by {
      assert [Focus(c)][1..] == [];
    }
  }
}

=== FILE: color_blend.dfy ===
/**
 The colour-blend value converter: every channel of an incoming colour is
 moved towards the matching channel of a fixed blend colour by a ratio in
 [0, 1], rounded half to even and clamped to a byte. Doubles are modelled
 as reals.
 */
module ColorBlend {
  import opened Values
  import opened Rounding

  /** The converter's two settable properties. */
  datatype Converter = Converter(blendedColorRatio: real, blendedColor: Color)

  /** A freshly constructed converter: ratio 0 and the default colour. */
  const Fresh: Converter := Converter(0.0, TransparentBlack)

  /** The range the ratio setter admits. */
  predicate ValidRatio(ratio: real) {
    0.0 <= ratio <= 1.0
  }

  /** The `BlendedColorRatio` setter: a value outside [0, 1] is rejected
      with an argument exception and the stored ratio stays as it was. */
  function SetBlendedColorRatio(c: Converter, value: real): (r: Result<Converter>)
    ensures r.Err? <==> !ValidRatio(value)
    ensures r.Err? ==> r.failure == InvalidArgument
    ensures r.Ok? ==> r.value.blendedColorRatio == value && r.value.blendedColor == c.blendedColor
  {
    if value < 0.0 || value > 1.0 then Err(InvalidArgument)
    else Ok(c.(blendedColorRatio := value))
  }

  /** The `BlendedColor` auto-property setter. */
  function SetBlendedColor(c: Converter, color: Color): (r: Converter)
    ensures r.blendedColor == color && r.blendedColorRatio == c.blendedColorRatio
  {
    c.(blendedColor := color)
  }

  /** A property assignment made by client code. */
  datatype Assignment = AssignRatio(ratio: real) | AssignColor(color: Color)

  /** Applies assignments in order; a rejected ratio leaves the converter
      as it was (the caller sees the exception and carries on). */
  function ApplyAll(c: Converter, assignments: seq<Assignment>): Converter
    decreases |assignments|
  {
    if |assignments| == 0 then c
    else ApplyAll(ApplyOne(c, assignments[0]), assignments[1..])
  }

  /** One assignment; a rejected ratio leaves the converter unchanged. */
  function ApplyOne(c: Converter, assignment: Assignment): (r: Converter)
    ensures ValidRatio(c.blendedColorRatio) ==> ValidRatio(r.blendedColorRatio)
  {
    match assignment
    case AssignRatio(v) =>
      (match SetBlendedColorRatio(c, v)
       case Ok(c') => c'
       case Err(_) => c)
    case AssignColor(col) => SetBlendedColor(c, col)
  }

  /** Whatever the client assigns, starting from a converter with a valid
      ratio (a fresh one, say) the stored ratio stays within [0, 1]. */
  lemma {:induction false} RatioAlwaysValid(c: Converter, assignments: seq<Assignment>)
    requires ValidRatio(c.blendedColorRatio)
    ensures ValidRatio(ApplyAll(c, assignments).blendedColorRatio)
    decreases |assignments|
  {
    if |assignments| > 0 {
      RatioAlwaysValid(ApplyOne(c, assignments[0]), assignments[1..]);
    }
  }

  /** A fresh converter keeps a valid ratio whatever the client assigns. */
  lemma FreshRatioAlwaysValid(assignments: seq<Assignment>)
    ensures ValidRatio(ApplyAll(Fresh, assignments).blendedColorRatio)
  {
    RatioAlwaysValid(Fresh, assignments);
  }

  /** `Math.Min(255, Math.Max(0, x))` followed by the byte conversion. */
  function Clamp(x: int): (r: byte)
    ensures 0 <= x < 0x100 ==> r == x
    ensures x < 0 ==> r == 0
    ensures x >= 0x100 ==> r == 0xFF
  {
    if x < 0 then 0 else if x > 0xFF then 0xFF else x
  }

  /** The unrounded linear interpolation between two channel values. */
  function Mix(ratio: real, original: byte, blend: byte): real {
    (original as real) * (1.0 - ratio) + (blend as real) * ratio
  }

  function Min(x: int, y: int): int { if x <= y then x else y }
  function Max(x: int, y: int): int { if x <= y then y else x }

  lemma MulNonNegative(x: real, y: real)
    requires 0.0 <= x && 0.0 <= y
    ensures 0.0 <= x * y
  {
  }

  /** With a ratio in [0, 1] the interpolation stays between its two ends. */
  lemma MixBetween(ratio: real, original: byte, blend: byte)
    requires ValidRatio(ratio)
    ensures Min(original, blend) as real <= Mix(ratio, original, blend) <= Max(original, blend) as real
  {
    var o, b := original as real, blend as real;
    assert Mix(ratio, original, blend) == o + (b - o) * ratio;
    var d := b - o;
    assert d - d * ratio == d * (1.0 - ratio);
    if o <= b {
      MulNonNegative(d, ratio);
      MulNonNegative(d, 1.0 - ratio);
    } else {
      MulNonNegative(-d, ratio);
      MulNonNegative(-d, 1.0 - ratio);
    }
  }

  /** `BlendValue`: one channel, blended, rounded and clamped. For a ratio
      in [0, 1] the result is the rounded interpolation itself (the clamp
      never changes it), lies between the two channel values and hits each
      end at ratio 0 and 1. */
  function BlendValue(ratio: real, original: byte, blend: byte): (v: byte)
    ensures ValidRatio(ratio) ==> v == RoundHalfEven(Mix(ratio, original, blend))
    ensures ValidRatio(ratio) ==> Min(original, blend) <= v <= Max(original, blend)
    ensures ratio == 0.0 ==> v == original
    ensures ratio == 1.0 ==> v == blend
  {
    var rounded := RoundHalfEven(Mix(ratio, original, blend));
    if ValidRatio(ratio) then
      MixBetween(ratio, original, blend);
      RoundWithin(Mix(ratio, original, blend), Min(original, blend), Max(original, blend));
      Clamp(rounded)
    else
      Clamp(rounded)
  }

  /** Blending with ratio t towards b is blending with ratio 1 - t towards
      the original: the two colours play symmetric roles. */
  lemma BlendValueSymmetric(ratio: real, original: byte, blend: byte)
    ensures BlendValue(ratio, original, blend) == BlendValue(1.0 - ratio, blend, original)
  {
    assert Mix(ratio, original, blend) == Mix(1.0 - ratio, blend, original);
  }

  /** The four channels of `Convert`, each blended with the same ratio. */
  function BlendColor(c: Converter, color: Color): Color {
    Color(BlendValue(c.blendedColorRatio, color.a, c.blendedColor.a),
          BlendValue(c.blendedColorRatio, color.r, c.blendedColor.r),
          BlendValue(c.blendedColorRatio, color.g, c.blendedColor.g),
          BlendValue(c.blendedColorRatio, color.b, c.blendedColor.b))
  }

  /** `Convert`: a colour comes back blended, each channel the rounded
      interpolation with the one stored ratio; null or any other object
      comes back as null. */
  function Convert(c: Converter, value: Boxed): (r: Boxed)
    ensures r.BoxedColor? <==> value.BoxedColor?
    ensures !value.BoxedColor? ==> r == Null
    ensures value.BoxedColor? && ValidRatio(c.blendedColorRatio) ==>
      var t, x, bc := c.blendedColorRatio, value.color, c.blendedColor;
      && r.color.a == RoundHalfEven(Mix(t, x.a, bc.a))
      && r.color.r == RoundHalfEven(Mix(t, x.r, bc.r))
      && r.color.g == RoundHalfEven(Mix(t, x.g, bc.g))
      && r.color.b == RoundHalfEven(Mix(t, x.b, bc.b))
  {
    match value
    case BoxedColor(color) => BoxedColor(BlendColor(c, color))
    case _ => Null
  }

  /** At ratio 0, the default, `Convert` hands back the input colour. */
  lemma ConvertAtZeroIsIdentity(c: Converter, color: Color)
    requires c.blendedColorRatio == 0.0
    ensures Convert(c, BoxedColor(color)) == BoxedColor(color)
  {
  }

  /** At ratio 1, `Convert` hands back the blend colour, whatever came in. */
  lemma ConvertAtOneIsBlendColor(c: Converter, color: Color)
    requires c.blendedColorRatio == 1.0
    ensures Convert(c, BoxedColor(color)) == BoxedColor(c.blendedColor)
  {
  }

  /** With a valid ratio, each output channel lies between the input channel
      and the blend channel. */
  lemma ConvertChannelsBetween(c: Converter, color: Color)
    requires ValidRatio(c.blendedColorRatio)
    ensures var out := Convert(c, BoxedColor(color)).color;
      && Min(color.a, c.blendedColor.a) <= out.a <= Max(color.a, c.blendedColor.a)
      && Min(color.r, c.blendedColor.r) <= out.r <= Max(color.r, c.blendedColor.r)
      && Min(color.g, c.blendedColor.g) <= out.g <= Max(color.g, c.blendedColor.g)
      && Min(color.b, c.blendedColor.b) <= out.b <= Max(color.b, c.blendedColor.b)
  {
  }

  /** Channels are blended independently: two inputs that agree on a
      channel produce outputs that agree on it. */
  lemma ConvertChannelsIndependent(c: Converter, x: Color, y: Color)
    ensures var ox, oy := Convert(c, BoxedColor(x)).color, Convert(c, BoxedColor(y)).color;
      && (x.a == y.a ==> ox.a == oy.a)
      && (x.r == y.r ==> ox.r == oy.r)
      && (x.g == y.g ==> ox.g == oy.g)
      && (x.b == y.b ==> ox.b == oy.b)
  {
  }

  /** `ConvertBack` is not implemented and always throws. */
  function ConvertBack(c: Converter, value: Boxed): (r: Result<Boxed>)
    ensures r == Err(NotImplemented)
  {
    Err(NotImplemented)
  }
}

=== FILE: progress_width.dfy ===
/**
 The progress-bar width multi-value converter: the bar is as wide as the
 wider of the busy content and the parent's minimum width.
 */
module ProgressBarWidth {
  import opened Values

  /** Unboxing `(double) o`: null throws a null-reference exception and any
      other non-double an invalid-cast exception. */
  function UnboxDouble(o: Boxed): (r: Result<real>)
    ensures r.Ok? <==> o.BoxedDouble?
    ensures r.Ok? ==> r.value == o.value
    ensures o.Null? ==> r == Err(NullReference)
    ensures o.BoxedColor? || o.OtherObject? ==> r == Err(InvalidCast)
  {
    match o
    case BoxedDouble(v) => Ok(v)
    case Null => Err(NullReference)
    case _ => Err(InvalidCast)
  }

  /** `Convert`: reads the content width from slot 0 and the parent minimum
      width from slot 1 and returns the larger. It succeeds exactly when
      both slots exist and hold doubles, and the result is an upper bound of
      the two widths that equals one of them. */
  function Convert(values: seq<Boxed>): (r: Result<real>)
    ensures r.Ok? <==> |values| >= 2 && values[0].BoxedDouble? && values[1].BoxedDouble?
    ensures |values| < 1 ==> r == Err(IndexOutOfRange)
    ensures |values| >= 1 && !values[0].BoxedDouble? ==> r == UnboxDouble(values[0])
    ensures |values| == 1 && values[0].BoxedDouble? ==> r == Err(IndexOutOfRange)
    ensures |values| >= 2 && values[0].BoxedDouble? && !values[1].BoxedDouble? ==> r == UnboxDouble(values[1])
    ensures r.Ok? ==> var contentWidth, parentMinWidth := values[0].value, values[1].value;
      && contentWidth <= r.value
      && parentMinWidth <= r.value
      && (r.value == contentWidth || r.value == parentMinWidth)
  {
    if |values| < 1 then Err(IndexOutOfRange)
    else match UnboxDouble(values[0])
      case Err(e) => Err(e)
      case Ok(contentWidth) =>
        if |values| < 2 then Err(IndexOutOfRange)
        else match UnboxDouble(values[1])
          case Err(e) => Err(e)
          case Ok(parentMinWidth) =>
            Ok(if contentWidth >= parentMinWidth then contentWidth else parentMinWidth)
  }

  /** The result is the least upper bound of the two widths: any width at
      least as large as both is at least as large as the result. */
  lemma ConvertIsLeastUpperBound(values: seq<Boxed>, w: real)
    requires Convert(values).Ok?
    requires w >= values[0].value && w >= values[1].value
    ensures Convert(values).value <= w
  {
  }

  /** Only the first two slots are read; anything after them is ignored. */
  lemma ConvertIgnoresExtraSlots(values: seq<Boxed>, extra: seq<Boxed>)
    requires |values| >= 2
    ensures Convert(values + extra) == Convert(values)
  {
    assert (values + extra)[0] == values[0] && (values + extra)[1] == values[1];
  }

  /** `ConvertBack` is not implemented and always throws. */
  function ConvertBack(value: Boxed): (r: Result<seq<Boxed>>)
    ensures r == Err(NotImplemented)
  {
    Err(NotImplemented)
  }
}

=== FILE: rounding.dfy ===
/**
 Rounding of a real to an integer the way `Math.Round(double)` does it in
 .NET: to the nearest integer, and a value exactly half-way between two
 integers goes to the even one (banker's rounding).
 */
module Rounding {

  /** True when `x` lies exactly half-way between `n` and a neighbour. */
  predicate IsMidpoint(x: real, n: int) {
    x - n as real == 0.5 || n as real - x == 0.5
  }

  /** Round half to even. The two postconditions pin the result down
      completely: it is a nearest integer, and on a tie it is even. */
  function RoundHalfEven(x: real): (n: int)
    ensures -0.5 <= x - n as real <= 0.5
    ensures IsMidpoint(x, n) ==> n % 2 == 0
  {
    var f := x.Floor;
    var frac := x - f as real;
    if frac < 0.5 then f
    else if frac > 0.5 then f + 1
    else if f % 2 == 0 then f
    else f + 1
  }

  /** An integral value is left alone. */
  lemma RoundOfInteger(k: int)
    ensures RoundHalfEven(k as real) == k
  {
  }

  /** Rounding never reverses the order of two values. */
  lemma RoundMonotone(x: real, y: real)
    requires x <= y
    ensures RoundHalfEven(x) <= RoundHalfEven(y)
  {
  }

  /** A value between two integers rounds to an integer between them. */
  lemma RoundWithin(x: real, lo: int, hi: int)
    requires lo as real <= x <= hi as real
    ensures lo <= RoundHalfEven(x) <= hi
  {
    RoundOfInteger(lo);
    RoundOfInteger(hi);
    RoundMonotone(lo as real, x);
    RoundMonotone(x, hi as real);
  }
}

=== FILE: values.dfy ===
/**
 Shared value types of the busy-indicator library: bytes, 32-bit signed
 integers, ARGB colours, the boxed objects a WPF value converter receives,
 and the failure values that stand for the exceptions the code throws.
 */
module Values {

  /** An unsigned 8-bit integer, as `System.Byte`. */
  type byte = x: int | 0 <= x < 0x100

  /** A signed 32-bit integer, as `System.Int32`. */
  type int32 = x: int | -0x8000_0000 <= x < 0x8000_0000

  /** A `System.Windows.Media.Color`: four byte channels. The default
      value of the struct has every channel zero. */
  datatype Color = Color(a: byte, r: byte, g: byte, b: byte)

  const TransparentBlack: Color := Color(0, 0, 0, 0)

  /** The run-time shape of an `object` handed to a converter: null, a boxed
      colour, a boxed double, or anything else. */
  datatype Boxed = Null | BoxedColor(color: Color) | BoxedDouble(value: real) | OtherObject

  /** The exceptions the modelled code lets escape. */
  datatype Failure =
    | InvalidArgument      // ArgumentException from a range-checked setter
    | IndexOutOfRange      // an array index past the end
    | InvalidCast          // an unboxing cast of the wrong type
    | NotImplemented       // NotImplementedException
    | NullReference        // a member access through a null reference

  datatype Result<+T> = Ok(value: T) | Err(failure: Failure)

  datatype Option<+T> = None | Some(value: T)
}

=== FILE: window_colors.dfy ===
/**
 The Desktop Window Manager colour lookup: two settings stored as 32-bit
 integers under the current user's DWM registry key are decoded into a
 colour and a boolean, each read at most once and cached for the life of
 the process. The registry is an oracle: a key either yields an `int32`
 or the read fails (missing key, missing sub-key, a value of another type,
 a security exception), which the model folds into "key absent".
 */
module WindowColors {
  import opened Values

  const ColorizationColorKey: string := "ColorizationColor"
  const ColorizationOpaqueBlendKey: string := "ColorizationOpaqueBlend"

  /** The colour used when the colour setting cannot be read. */
  const FallbackColor: Color := Color(0xFF, 175, 175, 175)

  /** The boolean used when the opaque-blend setting cannot be read. */
  const FallbackOpaqueBlend: bool := false

  /** The registry values visible to the lookup. */
  type Registry = map<string, int32>

  const TwoTo8: int := 0x100
  const TwoTo16: int := 0x1_0000
  const TwoTo24: int := 0x100_0000
  const TwoTo31: int := 0x8000_0000
  const TwoTo32: int := 0x1_0000_0000

  /** `BitConverter.ToInt32` on a little-endian machine: four bytes, least
      significant first, read as a two's-complement integer. */
  function FromBytes(bs: seq<byte>): int32
    requires |bs| == 4
  {
    var u := bs[0] + TwoTo8 * bs[1] + TwoTo16 * bs[2] + TwoTo24 * bs[3];
    if u >= TwoTo31 then u - TwoTo32 else u
  }

  /** The unsigned reading of a 32-bit pattern. */
  function Unsigned(v: int32): (u: nat)
    ensures u < TwoTo32 && u % TwoTo32 == v % TwoTo32
  {
    if v < 0 then v + TwoTo32 else v
  }

  /** `BitConverter.GetBytes(int)` on a little-endian machine: the inverse
      of `FromBytes`. */
  function GetBytes(v: int32): (bs: seq<byte>)
    ensures |bs| == 4
    ensures FromBytes(bs) == v
  {
    var u := Unsigned(v);
    var q1 := u / 0x100;
    var q2 := q1 / 0x100;
    var q3 := q2 / 0x100;
    assert u == u % 0x100 + 0x100 * q1;
    assert q1 == q1 % 0x100 + 0x100 * q2;
    assert q2 == q2 % 0x100 + 0x100 * q3;
    assert q3 < 0x100;
    [u % 0x100, q1 % 0x100, q2 % 0x100, q3]
  }

  /** The other round trip: any four bytes survive `FromBytes` followed by
      `GetBytes`. */
  lemma {:induction false} GetBytesFromBytes(bs: seq<byte>)
    requires |bs| == 4
    ensures GetBytes(FromBytes(bs)) == bs
  {
    var q2: int := bs[2] as int + 0x100 * bs[3] as int;
    var q1: int := bs[1] + 0x100 * q2;
    var u: int := bs[0] + 0x100 * q1;
    assert Unsigned(FromBytes(bs)) == u;
    DivModSplit(bs[0], 0x100, q1);
    DivModSplit(bs[1], 0x100, q2);
    DivModSplit(bs[2], 0x100, bs[3]);
  }

  /** Division with remainder of `low + m * q` by `m`, for `0 <= low < m`. */
  lemma DivModSplit(low: int, m: int, q: int)
    requires 0 <= low < m
    ensures (low + m * q) / m == q && (low + m * q) % m == low
  {
    var x := low + m * q;
    var q', r' := x / m, x % m;
    assert m * (q' - q) == low - r' by {
      assert x == m * q' + r';
    }
    if q' > q {
      MulAtLeast(m, q' - q);
    } else if q' < q {
      MulAtLeast(m, q - q');
    }
  }

  lemma MulAtLeast(m: int, k: int)
    requires m > 0 && k >= 1
    ensures m * k >= m
  {
  }

  /** `GetDWMColorValue` applied to the stored integer: blue, green and red
      are bytes 0, 1 and 2 of its little-endian form, byte 3 is dropped,
      and alpha is forced opaque. */
  function DecodeColor(v: int32): (c: Color)
    ensures c.a == 0xFF
  {
    var bytes := GetBytes(v);
    Color(0xFF, bytes[2], bytes[1], bytes[0])
  }

  /** Storing blue, green, red and any fourth byte decodes to the opaque
      colour with those three channels. */
  lemma DecodeStoredColor(blue: byte, green: byte, red: byte, ignored: byte)
    ensures DecodeColor(FromBytes([blue, green, red, ignored])) == Color(0xFF, red, green, blue)
  {
    GetBytesFromBytes([blue, green, red, ignored]);
  }

  /** The low 24 bits of the two's-complement pattern, as a number. */
  function Low24(v: int32): nat {
    v % TwoTo24
  }

  lemma Low24OfBytes(v: int32)
    ensures var bs := GetBytes(v); Low24(v) == bs[0] + TwoTo8 * bs[1] + TwoTo16 * bs[2]
  {
    var bs := GetBytes(v);
    var u := Unsigned(v);
    assert u == bs[0] + TwoTo8 * bs[1] + TwoTo16 * bs[2] + TwoTo24 * bs[3];
    assert u % TwoTo24 == v % TwoTo24 by {
      assert TwoTo32 == TwoTo24 * 0x100;
    }
  }

  /** Two stored integers decode to the same colour exactly when they agree
      on their low 24 bits: the top byte has no influence. */
  lemma DecodeColorDependsOnLow24(v: int32, w: int32)
    ensures DecodeColor(v) == DecodeColor(w) <==> Low24(v) == Low24(w)
  {
    Low24OfBytes(v);
    Low24OfBytes(w);
  }

  /** `GetDWMBoolValue` applied to the stored integer: false exactly when
      all four stored bytes are zero. */
  function DecodeBool(v: int32): (b: bool)
    ensures !b <==> GetBytes(v) == [0, 0, 0, 0]
  {
    DecodeBoolIsAnyByteSet(v);
    v != 0
  }

  /** The boolean setting is false exactly when all four stored bytes are
      zero. */
  lemma DecodeBoolIsAnyByteSet(v: int32)
    ensures v == 0 <==> GetBytes(v) == [0, 0, 0, 0]
  {
    if GetBytes(v) == [0, 0, 0, 0] {
      assert FromBytes(GetBytes(v)) == 0;
    }
  }

  /** The two process-wide caches, empty until first read. */
  datatype Cache = Cache(colorizationColor: Option<Color>, colorizationOpaqueBlend: Option<bool>)

  const EmptyCache: Cache := Cache(None, None)

  /** The value a getter returns together with the cache after the call. */
  datatype Read<+T> = Read(value: T, cache: Cache)

  /** The `ColorizationColor` getter. A cached colour is returned without
      touching the registry; otherwise the setting is read and decoded, a
      failed read gives the grey fallback, and either way the result is
      cached. The boolean cache is never touched. */
  function ColorizationColor(cache: Cache, registry: Registry): (r: Read<Color>)
    ensures r.cache.colorizationColor == Some(r.value)
    ensures r.cache.colorizationOpaqueBlend == cache.colorizationOpaqueBlend
    ensures cache.colorizationColor.Some? ==> r.value == cache.colorizationColor.value
    ensures cache.colorizationColor.None? || cache.colorizationColor.value.a == 0xFF ==> r.value.a == 0xFF
    ensures cache.colorizationColor.None? && ColorizationColorKey !in registry ==> r.value == FallbackColor
    ensures cache.colorizationColor.None? && ColorizationColorKey in registry ==>
      r.value == DecodeColor(registry[ColorizationColorKey])
  {
    match cache.colorizationColor
    case Some(c) => Read(c, cache)
    case None =>
      var c := if ColorizationColorKey in registry then DecodeColor(registry[ColorizationColorKey])
               else FallbackColor;
      Read(c, cache.(colorizationColor := Some(c)))
  }

  /** The `ColorizationOpaqueBlend` getter, cached the same way; a failed
      read gives false. The colour cache is never touched. */
  function ColorizationOpaqueBlend(cache: Cache, registry: Registry): (r: Read<bool>)
    ensures r.cache.colorizationOpaqueBlend == Some(r.value)
    ensures r.cache.colorizationColor == cache.colorizationColor
    ensures cache.colorizationOpaqueBlend.Some? ==> r.value == cache.colorizationOpaqueBlend.value
    ensures cache.colorizationOpaqueBlend.None? ==>
      (r.value <==> ColorizationOpaqueBlendKey in registry && registry[ColorizationOpaqueBlendKey] != 0)
  {
    match cache.colorizationOpaqueBlend
    case Some(b) => Read(b, cache)
    case None =>
      var b := if ColorizationOpaqueBlendKey in registry then DecodeBool(registry[ColorizationOpaqueBlendKey])
               else FallbackOpaqueBlend;
      Read(b, cache.(colorizationOpaqueBlend := Some(b)))
  }

  /** A query made against whatever the registry holds at that moment. */
  datatype Query = AskColor(registry: Registry) | AskOpaqueBlend(registry: Registry)

  datatype Answer = ColorAnswer(color: Color) | BoolAnswer(flag: bool)

  /** Runs a series of getter calls, threading the cache. */
  function Replay(cache: Cache, queries: seq<Query>): (answers: seq<Answer>)
    ensures |answers| == |queries|
    decreases |queries|
  {
    if |queries| == 0 then []
    else match queries[0]
      case AskColor(reg) =>
        var r := ColorizationColor(cache, reg);
        [ColorAnswer(r.value)] + Replay(r.cache, queries[1..])
      case AskOpaqueBlend(reg) =>
        var r := ColorizationOpaqueBlend(cache, reg);
        [BoolAnswer(r.value)] + Replay(r.cache, queries[1..])
  }

  /** The cache after one query. */
  function CacheAfter(cache: Cache, q: Query): Cache {
    match q
    case AskColor(reg) => ColorizationColor(cache, reg).cache
    case AskOpaqueBlend(reg) => ColorizationOpaqueBlend(cache, reg).cache
  }

  /** From a cache holding a colour, every colour answer is that colour and
      every boolean answer is the cached boolean if one is held. */
  lemma {:induction false} ReplayAnswersFromCache(cache: Cache, queries: seq<Query>)
    ensures forall i | 0 <= i < |queries| && Replay(cache, queries)[i].ColorAnswer? ::
      cache.colorizationColor.Some? ==> Replay(cache, queries)[i].color == cache.colorizationColor.value
    ensures forall i | 0 <= i < |queries| && Replay(cache, queries)[i].BoolAnswer? ::
      cache.colorizationOpaqueBlend.Some? ==> Replay(cache, queries)[i].flag == cache.colorizationOpaqueBlend.value
    decreases |queries|
  {
    if |queries| > 0 {
      var next := CacheAfter(cache, queries[0]);
      ReplayAnswersFromCache(next, queries[1..]);
      var answers := Replay(cache, queries);
      assert answers[1..] == Replay(next, queries[1..]);
    }
  }

  /** Memoisation over any run of calls, however the registry changes in
      between: every colour answer equals the first one, and so does every
      boolean answer. */
  lemma {:induction false} ReplayIsMemoised(cache: Cache, queries: seq<Query>, i: nat, j: nat)
    requires i < j < |queries|
    requires Replay(cache, queries)[i].ColorAnswer? == Replay(cache, queries)[j].ColorAnswer?
    ensures Replay(cache, queries)[i] == Replay(cache, queries)[j]
    decreases |queries|
  {
    var next := CacheAfter(cache, queries[0]);
    if i == 0 {
      ReplayAnswersFromCache(next, queries[1..]);
      assert Replay(cache, queries)[j] == Replay(next, queries[1..])[j - 1];
    } else {
      ReplayIsMemoised(next, queries[1..], i - 1, j - 1);
    }
  }

  /** From the empty cache, the first colour read fixes every later colour
      answer, whatever the registry holds at each call. */
  lemma FirstColorReadIsFinal(queries: seq<Query>, i: nat)
    requires 0 < |queries| && queries[0].AskColor? && i < |queries|
    requires Replay(EmptyCache, queries)[i].ColorAnswer?
    ensures Replay(EmptyCache, queries)[i] == Replay(EmptyCache, queries)[0]
  {
    if i > 0 {
      ReplayIsMemoised(EmptyCache, queries, 0, i);
    }
  }

  /** Once the colour is cached the registry's contents are irrelevant. */
  lemma CachedColorIgnoresRegistry(cache: Cache, r1: Registry, r2: Registry)
    requires cache.colorizationColor.Some?
    ensures ColorizationColor(cache, r1) == ColorizationColor(cache, r2) == Read(cache.colorizationColor.value, cache)
  {
  }

  /** Once the boolean is cached the registry's contents are irrelevant. */
  lemma CachedOpaqueBlendIgnoresRegistry(cache: Cache, r1: Registry, r2: Registry)
    requires cache.colorizationOpaqueBlend.Some?
    ensures ColorizationOpaqueBlend(cache, r1) == ColorizationOpaqueBlend(cache, r2)
      == Read(cache.colorizationOpaqueBlend.value, cache)
  {
  }
}
